=== FILE: README.md ===
# Capture screen: crop mapping and camera/flashlight state

This project models the logic of the ZXing capture screen
(`CaptureActivity`) that can be specified on its own, and proves properties
of the model:

- **Crop mapping** (`initCrop`). The scan overlay is given in on-screen
  pixels inside its container view. The mapping turns it into a rectangle in
  the camera preview frame using Java `int` arithmetic: multiply, then
  truncating divide. The screen is portrait and the sensor is landscape, so
  the horizontal axis scales by the resolution's `y` and the vertical axis by
  its `x`. The overlay's top edge is its window `y` minus the status-bar
  height, so it can be negative. The model keeps Java's 32-bit wrap-around
  (`JavaInt.Wrap`) and its round-toward-zero division (`JavaInt.Div`). It
  also keeps the `ArithmeticException` that a zero-sized container raises
  (`Crop.DivideByZero`).
- **Screen state** (`onResume`, `onPause`, `surfaceCreated`,
  `surfaceDestroyed`, `initCamera`, and the flashlight branch of `onClick`).
  The state is a record: lifecycle position, surface flag, whether the
  surface callback is installed, whether the camera driver is open, drivers
  still held by replaced camera managers, whether a decode handler is
  present, the flashlight flag, the last torch command the current camera
  manager received, the crop rectangle,
  and whether the error dialog has been shown. Each callback is a pure
  transition function. The platform's answers (whether the driver opens,
  whether the handler starts, the view layout, the camera resolution) are
  parameters.

Files: `java_int.dfy` (module `JavaInt`), `crop.dfy` (module `Crop`),
`screen.dfy` (module `Screen`).

## Model

| member | source | states |
|---|---|---|
| `JavaInt.Wrap` | zxingScan/src/com/google/zxing/activity/CaptureActivity.java:366-376 | Java `int` wrap-around: the result is congruent to the exact value modulo 2^32, and equals it whenever the exact value fits in an `int` |
| `JavaInt.Mul` | zxingScan/src/com/google/zxing/activity/CaptureActivity.java:366-373 | `int` multiplication is exact whenever the product fits and congruent modulo 2^32 otherwise |
| `JavaInt.Add` | zxingScan/src/com/google/zxing/activity/CaptureActivity.java:376 | `int` addition of a size to an origin is exact whenever the sum fits |
| `JavaInt.Sub` | zxingScan/src/com/google/zxing/activity/CaptureActivity.java:356 | the status-bar subtraction is exact whenever the difference fits |
| `JavaInt.DivSpec` | zxingScan/src/com/google/zxing/activity/CaptureActivity.java:366-373 | Java `/` on `int` rounds toward zero. `|b·q| <= |a| < |b·q| + |b|`. The quotient is positive or negative exactly as the operand signs and magnitudes dictate. `MIN_VALUE / -1` wraps to `MIN_VALUE` |
| `Crop.InitCrop` | zxingScan/src/com/google/zxing/activity/CaptureActivity.java:343-377 | the mapping raises the division fault exactly when the container width or height is zero, and yields a rectangle otherwise |
| `Crop.ScaleTruncates` | zxingScan/src/com/google/zxing/activity/CaptureActivity.java:366-373 | when `v·camera` fits in an `int`, the scaled value is the truncating quotient of `v·camera` by the container: the floor for a non-negative product, the ceiling for a negative one. It is never larger in magnitude than the product |
| `Crop.CropGeometry` | zxingScan/src/com/google/zxing/activity/CaptureActivity.java:345-376 | when the containers are non-empty and `|cropLeft·resolution.y| + |cropWidth·resolution.y|` and `|cropTop·resolution.x| + |cropHeight·resolution.x|` are each at most 2^31−1 (`Crop.Fits`, which rules out every overflow): left is `cropLeft·resolution.y / containerWidth` and top is `cropTop·resolution.x / containerHeight`, each truncated. `right − left` is exactly the truncated `cropWidth·resolution.y / containerWidth`, and `bottom − top` is the truncated `cropHeight·resolution.x / containerHeight`. This shows the portrait axis swap and that adding the origin loses nothing |
| `Crop.CropNonNegative` | zxingScan/src/com/google/zxing/activity/CaptureActivity.java:366-376 | when the containers are non-empty and `|cropLeft·resolution.y| + |cropWidth·resolution.y|` and `|cropTop·resolution.x| + |cropHeight·resolution.x|` are each at most 2^31−1 (`Crop.Fits`, which rules out every overflow): a non-negative overlay origin and size and a non-negative resolution give a non-negative origin, `left <= right` and `top <= bottom` |
| `Crop.FullContainerIsFullFrame` | zxingScan/src/com/google/zxing/activity/CaptureActivity.java:366-376 | when the container-times-resolution products fit in an `int`, whatever the resolution's sign: an overlay at the container's origin with the container's size maps to exactly `Rect(0, 0, resolution.y, resolution.x)` |
| `Crop.CropInsideFrame` | zxingScan/src/com/google/zxing/activity/CaptureActivity.java:366-376 | when the containers are non-empty and `|cropLeft·resolution.y| + |cropWidth·resolution.y|` and `|cropTop·resolution.x| + |cropHeight·resolution.x|` are each at most 2^31−1 (`Crop.Fits`, which rules out every overflow), each axis on its own: with a non-negative `resolution.y` and `cropWidth`, `cropLeft + cropWidth <= containerWidth` gives `right <= resolution.y`. With a non-negative `resolution.x` and `cropHeight`, `cropTop + cropHeight <= containerHeight` gives `bottom <= resolution.x`. The origin may be negative: a top edge under the status bar is rounded up, yet the bound still holds |
| `Crop.FullExtent` | zxingScan/src/com/google/zxing/activity/CaptureActivity.java:366-373 | when `container·camera` fits in an `int`, scaling 0 gives 0 and scaling the whole container gives exactly the camera extent |
| `Crop.FarNegativeTopStaysNegative` | zxingScan/src/com/google/zxing/activity/CaptureActivity.java:356-376 | a concrete overlay whose top edge lies 100 pixels above a 100-pixel container maps to a negative top, −7 |
| `Crop.NegativeTopStaysInside` | zxingScan/src/com/google/zxing/activity/CaptureActivity.java:356-376 | a concrete overlay whose top edge lies 10 pixels above the container maps to top 0 and a bottom inside the sensor height |
| `Crop.ScaleMonotone` | zxingScan/src/com/google/zxing/activity/CaptureActivity.java:366-373 | a larger non-negative overlay extent never maps to a smaller camera extent |
| `Crop.ScaleDoubling` | zxingScan/src/com/google/zxing/activity/CaptureActivity.java:371-373 | doubling an overlay extent gives twice the scaled extent or one pixel more, never anything else |
| `Crop.DoublingIsNotExact` | zxingScan/src/com/google/zxing/activity/CaptureActivity.java:371-373 | a concrete case where doubling is not exact: 1 pixel scales to 1, 2 pixels scale to 3 |
| `Crop.NegativeTopRoundsTowardZero` | zxingScan/src/com/google/zxing/activity/CaptureActivity.java:356-368 | a top edge one pixel above the container maps to 0, not −1, because Java truncates toward zero |
| `Screen.InitCamera` | zxingScan/src/com/google/zxing/activity/CaptureActivity.java:279-305 | initialisation while the driver is open leaves the state unchanged. It never changes the lifecycle position, the surface flag, the callback, the flashlight flag or the torch command |
| `Screen.InitCameraOpensOnce` | zxingScan/src/com/google/zxing/activity/CaptureActivity.java:283-288 | the driver is opened only when the current manager holds none. It ends open exactly when the opening did not fail, and then one more driver is held |
| `Screen.InitCameraStarts` | zxingScan/src/com/google/zxing/activity/CaptureActivity.java:288-304 | a successful opening leaves a running handler and stores the crop rectangle. The error dialog appears exactly when the crop computation divides by zero, because `ArithmeticException` is a `RuntimeException` |
| `Screen.InitCameraFaults` | zxingScan/src/com/google/zxing/activity/CaptureActivity.java:287-304 | a failed opening, or a handler that fails to start, shows the dialog and keeps the old crop. A handler that is already present is not rebuilt, so it cannot fail to start |
| `Screen.OnResume` | zxingScan/src/com/google/zxing/activity/CaptureActivity.java:175-201 | resuming replaces the camera manager and any driver the old manager held stays held. The flashlight flag is kept, but the new manager has received no torch command. With a surface, the camera is open afterwards exactly when the driver opens. Without one, the camera stays closed and the surface callback is installed |
| `Screen.OnPause` | zxingScan/src/com/google/zxing/activity/CaptureActivity.java:215-227 | pausing stops the handler and closes the driver. Only drivers of replaced managers remain held. The callback stays installed only if a surface exists |
| `Screen.OnSurfaceCreated` | zxingScan/src/com/google/zxing/activity/CaptureActivity.java:236-244 | with the surface flag already set nothing changes. Otherwise the flag is set, the driver is open afterwards unless it was closed and failed to open, and one more driver is held exactly when it was newly opened. The lifecycle position, the callback, the flashlight flag and the torch command are kept |
| `Screen.OnSurfaceDestroyed` | zxingScan/src/com/google/zxing/activity/CaptureActivity.java:247-249 | the surface flag is cleared and nothing else changes |
| `Screen.OnFlashlightClick` | zxingScan/src/com/google/zxing/activity/CaptureActivity.java:461-470 | a click flips the flashlight flag and sends the torch the new value. Nothing else changes |
| `Screen.ClickTwiceRestores` | zxingScan/src/com/google/zxing/activity/CaptureActivity.java:461-470 | two clicks restore the flag and leave the torch with the original value. With a prior command that agrees with the flag, they restore the whole state |
| `Screen.OnlyClickTouchesTorch` | zxingScan/src/com/google/zxing/activity/CaptureActivity.java:175-249 | no lifecycle or surface event changes the flashlight flag. A resume leaves the new manager without a torch command; every other event keeps the command |
| `Screen.StepKeepsTorchConsistent` | zxingScan/src/com/google/zxing/activity/CaptureActivity.java:185 | any event, in any order, keeps the current manager's torch command (when it has one) equal to the flashlight flag |
| `Screen.RunKeepsTorchConsistent` | zxingScan/src/com/google/zxing/activity/CaptureActivity.java:175-249 | along any run, admissible or not, the current manager has either received no torch command or was last told the flashlight flag |
| `Screen.CreatedSatisfiesInvariant` | zxingScan/src/com/google/zxing/activity/CaptureActivity.java:93-146 | the freshly created screen holds no driver, satisfies the invariant, has the flashlight off and has sent no torch command |
| `Screen.StepPreservesInvariant` | zxingScan/src/com/google/zxing/activity/CaptureActivity.java:175-249 | every event the lifecycle allows keeps the invariant: no replaced manager holds a driver and only a resumed screen holds one |
| `Screen.RunPreservesInvariant` | zxingScan/src/com/google/zxing/activity/CaptureActivity.java:175-305 | along any admissible run the invariant holds. So at most one camera driver is ever held |
| `Screen.OpensOnlyWhenNoneHeld` | zxingScan/src/com/google/zxing/activity/CaptureActivity.java:283-288 | under the invariant, any step that raises the number of held drivers starts from none held: the camera is never opened twice |
| `Screen.ResumeForgetsTorch` | zxingScan/src/com/google/zxing/activity/CaptureActivity.java:185 | a concrete admissible run (resume, surface, flashlight on, pause, resume) ends with the flag on while the new manager has received no torch command, and the next click sends it "off" |
| `Screen.PausedSurfaceOpensTwice` | zxingScan/src/com/google/zxing/activity/CaptureActivity.java:175-248 | the guard alone is not enough: if a surface is recreated while paused, the callback (still installed) opens the driver. The next resume replaces the manager without closing it and attempts a second opening; when the platform lets it succeed, two drivers are held. This run is not admissible |

## Left out

- Android UI plumbing: the scan-line animation, the keep-screen-on flag, toasts, the error dialog's `finish()` (the model records that the dialog was shown and keeps processing events), the options menu and `onDestroy`.
- Storage-permission request and response, the gallery chooser (`openPicture`) and `onActivityResult`. These are platform calls with no logic of their own.
- The gallery decode worker thread and the `MyHandler` message dispatch. They are concurrency plus calls into `BitmapUtils`, `BitmapDecoder` and `ResultParser`, which are not part of this model.
- `handleDecode` and its result payload (crop width and height plus the text), and `restartPreviewAfterDelay`. They only forward to the results screen and the handler.
- The reflective status-bar-height lookup. Its result is the `statusBarHeight` input of `Crop.Layout`, any `int`.
- `CameraManager`, `CaptureActivityHandler`, `InactivityTimer` and `BeepManager` are not part of this model. The driver open/closed state, the handler's presence and the last torch command stand in for them. Whether the lamp itself follows the last command across a pause, or after the manager is replaced, depends on `CameraManager`. The model does not decide it.
- A null surface holder. `initCamera` would throw an uncaught `IllegalStateException`; the platform never passes null, and `surfaceCreated` only logs it.
- `Crop.CropGeometry`, `Crop.CropNonNegative`, `Crop.CropInsideFrame`: say nothing about inputs outside `Crop.Fits`. `Fits` bounds the sum of the two products' magnitudes on each axis, so it also excludes some inputs that do not overflow, for example `Layout(1, 0, 0, 1, 0, 2, 1)` with `Resolution(1, 1500000000)`. `Crop.InitCrop` computes the (possibly wrapped) values for them, but no lemma describes them.
- `Crop.FullContainerIsFullFrame`: says nothing when a container-times-resolution product overflows an `int`.
- `Screen.RunPreservesInvariant`: assumes the platform delivers a new surface only while the screen is resumed (`Screen.Enabled`). `Screen.PausedSurfaceOpensTwice` shows the property fails without that assumption.

## Behaviour worth noting

- Doubling the overlay size does not exactly double the crop size. Truncating division makes the result twice the original or one pixel more (`Crop.ScaleDoubling`, `Crop.DoublingIsNotExact`).
- A container of zero width or height still reaches the mapping. Its `ArithmeticException` is caught with the other runtime faults at line 299 of `CaptureActivity.java`, and the error dialog is shown (`Crop.InitCrop`, `Screen.InitCameraStarts`).
- A top edge under the status bar is rounded toward zero, so a small overhang maps to top 0 (`Crop.NegativeTopRoundsTowardZero`). Once `cropTop·resolution.x <= −containerHeight`, the rectangle's top is negative (`Crop.FarNegativeTopStaysNegative`).
- The crop is an Android `Rect` built from left, top, right and bottom. Right and bottom are computed as origin plus scaled size (`Crop.CropGeometry`).
- `isFlashlightOpen` survives a resume, but the new `CameraManager` of line 185 has been sent no torch command. After the flashlight was switched on, the first click after a pause and resume sends "off" (`Screen.ResumeForgetsTorch`).

=== FILE: crop.dfy ===
/**
  The crop rectangle of the capture screen: the scan overlay, measured in
  on-screen pixels inside its container view, scaled into the pixel grid of
  the camera preview frame. The screen is portrait while the camera sensor is
  landscape, so the horizontal screen axis maps onto the resolution's `y` and
  the vertical one onto its `x`.
*/
module Crop {
  import opened JavaInt

  /** The camera preview resolution as the camera reports it (landscape: `x` is the long side). */
  datatype Resolution = Resolution(x: int32, y: int32)

  /** What the crop computation reads from the laid-out views. */
  datatype Layout = Layout(
    locationX: int32,        // overlay's left edge in window coordinates
    locationY: int32,        // overlay's top edge in window coordinates
    statusBarHeight: int32,  // subtracted from locationY; any value the platform reports
    cropWidth: int32,        // overlay view width
    cropHeight: int32,       // overlay view height
    containerWidth: int32,   // container view width
    containerHeight: int32)  // container view height

  /** An Android `Rect`: left/top inclusive, right/bottom exclusive. */
  datatype Rect = Rect(left: int32, top: int32, right: int32, bottom: int32)

  /** The mapped rectangle, or the `ArithmeticException` a zero divisor raises. */
  datatype CropResult = Mapped(rect: Rect) | DivideByZero

  /** Portrait convention: the sensor width seen by the screen is the resolution's `y`. */
  function CameraWidth(res: Resolution): (w: int32) {
    res.y
  }

  /** Portrait convention: the sensor height seen by the screen is the resolution's `x`. */
  function CameraHeight(res: Resolution): (h: int32) {
    res.x
  }

  /** The overlay's top edge relative to the container; negative when the overlay sits above it. */
  function CropTop(l: Layout): (top: int32) {
    Sub(l.locationY, l.statusBarHeight)
  }

  /** One axis of the mapping, in Java `int` arithmetic: `v * camera / container`. */
  function Scale(v: int32, camera: int32, container: int32): (scaled: int32)
    requires container != 0
  {
    Div(Mul(v, camera), container)
  }

  /** The overlay mapped into camera-frame pixels. */
  function InitCrop(l: Layout, res: Resolution): (r: CropResult)
    ensures r.DivideByZero? <==> l.containerWidth == 0 || l.containerHeight == 0
  {
    var cameraWidth := CameraWidth(res);
    var cameraHeight := CameraHeight(res);
    if l.containerWidth == 0 || l.containerHeight == 0 then
      DivideByZero
    else
      var x := Scale(l.locationX, cameraWidth, l.containerWidth);
      var y := Scale(CropTop(l), cameraHeight, l.containerHeight);
      var width := Scale(l.cropWidth, cameraWidth, l.containerWidth);
      var height := Scale(l.cropHeight, cameraHeight, l.containerHeight);
      Mapped(Rect(x, y, Add(width, x), Add(height, y)))
  }

  /**
    `q` is `n / d` rounded toward zero (for `d > 0`): the floor for a
    non-negative `n`, the ceiling for a negative one.
  */
  ghost predicate IsTruncQuotient(q: int, n: int, d: int) {
    if n >= 0 then d * q <= n < d * q + d else d * q - d < n <= d * q
  }

  /**
    The inputs stay small enough that no product, and no sum of an origin
    and a size, leaves Java's `int` range.
  */
  predicate Fits(l: Layout, res: Resolution) {
    && l.containerWidth > 0
    && l.containerHeight > 0
    && Abs(l.locationX * CameraWidth(res)) + Abs(l.cropWidth * CameraWidth(res)) <= MaxValue
    && Abs(CropTop(l) * CameraHeight(res)) + Abs(l.cropHeight * CameraHeight(res)) <= MaxValue
  }

  // ---------------------------------------------------------------------
  // Arithmetic facts about truncating quotients

  lemma CancelLe(d: int, x: int, y: int)
    requires d > 0 && d * x <= d * y
    ensures x <= y
  {
    if x > y {
      MulMonotone(y + 1, x, d);
    }
  }

  lemma CancelLt(d: int, x: int, y: int)
    requires d > 0 && d * x < d * y
    ensures x < y
  {
    if x >= y {
      MulMonotone(y, x, d);
    }
  }

  /** A non-negative dividend has a non-negative truncating quotient. */
  lemma TruncQuotientNonNegative(q: int, n: int, d: int)
    requires d > 0 && n >= 0 && IsTruncQuotient(q, n, d)
    ensures q >= 0
  {
    assert d * (q + 1) == d * q + d;
    CancelLt(d, 0, q + 1);
  }

  /** A truncating quotient is determined by its dividend and divisor. */
  lemma {:induction false} TruncQuotientUnique(q1: int, q2: int, n: int, d: int)
    requires d > 0
    requires IsTruncQuotient(q1, n, d) && IsTruncQuotient(q2, n, d)
    ensures q1 == q2
  {
    if n >= 0 {
      CancelLt(d, q1, q2 + 1);
      CancelLt(d, q2, q1 + 1);
    } else {
      CancelLt(d, q1 - 1, q2);
      CancelLt(d, q2 - 1, q1);
    }
  }

  /** Java's `n / d` for a positive divisor is the truncating quotient and no larger than `n`. */
  lemma DivTruncates(n: int32, d: int32)
    requires d > 0
    ensures IsTruncQuotient(Div(n, d), n, d)
    ensures Abs(Div(n, d)) <= Abs(n)
  {
    var q: int := Div(n, d);
    DivSpec(n, d);
    AbsMul(d, q);
    MulMonotone(1, d, Abs(q));
    if n < 0 {
      assert q <= 0;
      assert Abs(d * q) == -(d * q);
    } else {
      assert q >= 0;
      assert Abs(d * q) == d * q;
    }
  }

  /** Java's `v * camera / container` is the truncating quotient when the product fits. */
  lemma ScaleTruncates(v: int32, camera: int32, container: int32)
    requires container > 0 && InRange(v * camera)
    ensures IsTruncQuotient(Scale(v, camera, container), v * camera, container)
    ensures Abs(Scale(v, camera, container)) <= Abs(v * camera)
  {
    assert Mul(v, camera) == v * camera;
    DivTruncates(Mul(v, camera), container);
  }

  /**
    An origin share rounded either way and a size share rounded down, which
    together fit in the container, add up to at most the camera extent:
    `c·x - c < a·k` and `c·w <= b·k` with `a + b <= c` give `x + w <= k`.
  */
  lemma RoundedSumBound(c: int, k: nat, a: int, b: int, x: int, w: int)
    requires c > 0 && a + b <= c
    requires c * x - c < a * k && c * w <= b * k
    ensures x + w <= k
  {
    MulMonotone(a + b, c, k);
    assert c * (x + w + 1) == c * x + c * w + c;
    assert (a + b) * k == a * k + b * k;
    assert c * (k + 1) == c * k + c;
    CancelLt(c, x + w, k + 1);
  }

  lemma MulNonNegative(a: int, k: int)
    requires a >= 0 && k >= 0
    ensures a * k >= 0
  {
    MulMonotone(0, a, k);
  }

  /** Scaling a non-negative extent gives a non-negative result. */
  lemma TruncNonNegative(q: int, a: int, k: int, d: int)
    requires d > 0 && a >= 0 && k >= 0 && IsTruncQuotient(q, a * k, d)
    ensures q >= 0
  {
    MulNonNegative(a, k);
    TruncQuotientNonNegative(q, a * k, d);
  }

  /**
    An origin of either sign and a non-negative size that together fit in
    `d` scale to a sum within `k`: a negative origin is rounded up, but by
    less than one whole pixel.
  */
  lemma TruncSumWithin(d: int, k: int, a: int, b: int, x: int, w: int)
    requires d > 0 && k >= 0 && b >= 0 && a + b <= d
    requires IsTruncQuotient(x, a * k, d) && IsTruncQuotient(w, b * k, d)
    ensures x + w <= k
  {
    MulNonNegative(b, k);
    RoundedSumBound(d, k, a, b, x, w);
  }

  /** Scaling is monotone in the extent. */
  lemma TruncMonotone(p: int, q: int, a: int, b: int, k: int, d: int)
    requires d > 0 && k >= 0 && 0 <= a <= b
    requires IsTruncQuotient(p, a * k, d) && IsTruncQuotient(q, b * k, d)
    ensures p <= q
  {
    MulNonNegative(a, k);
    MulMonotone(a, b, k);
    CancelLt(d, p, q + 1);
  }

  /** Scaling twice an extent gives twice the scaled extent, or one more. */
  lemma TruncDoubling(q: int, r: int, a: int, k: int, d: int)
    requires d > 0 && k >= 0 && a >= 0
    requires IsTruncQuotient(q, a * k, d) && IsTruncQuotient(r, (2 * a) * k, d)
    ensures 2 * q <= r <= 2 * q + 1
  {
    MulNonNegative(a, k);
    assert (2 * a) * k == 2 * (a * k);
    assert d * (2 * q) == 2 * (d * q);
    assert d * (r + 1) == d * r + d;
    assert d * (2 * q + 2) == 2 * (d * q + d);
    CancelLt(d, 2 * q, r + 1);
    CancelLt(d, r, 2 * q + 2);
  }

  // ---------------------------------------------------------------------
  // Properties of the mapping

  /**
    When nothing overflows, every edge of the rectangle is the truncating
    quotient the scaling asks for: the horizontal edges scale by the
    resolution's `y` over the container width, the vertical ones by its `x`
    over the container height, and the width and height are exactly the scaled
    overlay size.
  */
  lemma CropGeometry(l: Layout, res: Resolution)
    requires Fits(l, res)
    ensures InitCrop(l, res).Mapped?
    ensures var r := InitCrop(l, res).rect;
      && IsTruncQuotient(r.left, l.locationX * res.y, l.containerWidth)
      && IsTruncQuotient(r.top, CropTop(l) * res.x, l.containerHeight)
      && IsTruncQuotient(r.right - r.left, l.cropWidth * res.y, l.containerWidth)
      && IsTruncQuotient(r.bottom - r.top, l.cropHeight * res.x, l.containerHeight)
  {
    ScaleTruncates(l.locationX, res.y, l.containerWidth);
    ScaleTruncates(CropTop(l), res.x, l.containerHeight);
    ScaleTruncates(l.cropWidth, res.y, l.containerWidth);
    ScaleTruncates(l.cropHeight, res.x, l.containerHeight);
  }

  /** A non-negative overlay and resolution give a rectangle with a non-negative origin and size. */
  lemma CropNonNegative(l: Layout, res: Resolution)
    requires Fits(l, res)
    requires res.x >= 0 && res.y >= 0
    requires l.locationX >= 0 && CropTop(l) >= 0 && l.cropWidth >= 0 && l.cropHeight >= 0
    ensures InitCrop(l, res).Mapped?
    ensures var r := InitCrop(l, res).rect;
      0 <= r.left <= r.right && 0 <= r.top <= r.bottom
  {
    CropGeometry(l, res);
    var r := InitCrop(l, res).rect;
    TruncNonNegative(r.left, l.locationX, res.y, l.containerWidth);
    TruncNonNegative(r.top, CropTop(l), res.x, l.containerHeight);
    TruncNonNegative(r.right - r.left, l.cropWidth, res.y, l.containerWidth);
    TruncNonNegative(r.bottom - r.top, l.cropHeight, res.x, l.containerHeight);
  }

  /**
    An overlay covering the whole container maps onto the whole camera frame,
    whatever the sign of the resolution, as long as the container times the
    resolution fits in an `int`.
  */
  lemma FullContainerIsFullFrame(l: Layout, res: Resolution)
    requires l.containerWidth > 0 && l.containerHeight > 0
    requires InRange(l.containerWidth * res.y) && InRange(l.containerHeight * res.x)
    requires l.locationX == 0 && CropTop(l) == 0
    requires l.cropWidth == l.containerWidth && l.cropHeight == l.containerHeight
    ensures InitCrop(l, res) == Mapped(Rect(0, 0, CameraWidth(res), CameraHeight(res)))
  {
    FullExtent(l.containerWidth, res.y);
    FullExtent(l.containerHeight, res.x);
  }

  /** Scaling zero gives zero, and scaling the whole container gives the whole camera extent. */
  lemma FullExtent(container: int32, camera: int32)
    requires container > 0 && InRange(container * camera)
    ensures Scale(0, camera, container) == 0
    ensures Scale(container, camera, container) == camera
  {
    ScaleTruncates(0, camera, container);
    ScaleTruncates(container, camera, container);
    TruncQuotientUnique(Scale(0, camera, container), 0, 0, container);
    TruncQuotientUnique(Scale(container, camera, container), camera, container * camera, container);
  }

  /**
    An overlay ending inside the container maps into the camera frame: its
    right edge stays within the sensor width and its bottom edge within the
    sensor height, although origin and size are rounded separately, and even
    when the origin is negative (the top edge lies under the status bar) and
    is therefore rounded up. Each axis needs only its own size and resolution
    to be non-negative.
  */
  lemma CropInsideFrame(l: Layout, res: Resolution)
    requires Fits(l, res)
    ensures InitCrop(l, res).Mapped?
    ensures res.y >= 0 && l.cropWidth >= 0 && l.locationX + l.cropWidth <= l.containerWidth ==>
      InitCrop(l, res).rect.right <= CameraWidth(res)
    ensures res.x >= 0 && l.cropHeight >= 0 && CropTop(l) + l.cropHeight <= l.containerHeight ==>
      InitCrop(l, res).rect.bottom <= CameraHeight(res)
  {
    CropGeometry(l, res);
    var r := InitCrop(l, res).rect;
    if res.y >= 0 && l.cropWidth >= 0 && l.locationX + l.cropWidth <= l.containerWidth {
      TruncSumWithin(l.containerWidth, res.y, l.locationX, l.cropWidth, r.left, r.right - r.left);
    }
    if res.x >= 0 && l.cropHeight >= 0 && CropTop(l) + l.cropHeight <= l.containerHeight {
      TruncSumWithin(l.containerHeight, res.x, CropTop(l), l.cropHeight, r.top, r.bottom - r.top);
    }
  }

  /** A top edge under the status bar still keeps the bottom edge inside the sensor height. */
  lemma NegativeTopStaysInside()
    ensures var l := Layout(0, 10, 20, 100, 90, 100, 100);
      var res := Resolution(7, 7);
      && CropTop(l) < 0
      && InitCrop(l, res).rect.top == 0
      && InitCrop(l, res).rect.bottom <= CameraHeight(res)
  {
    var l := Layout(0, 10, 20, 100, 90, 100, 100);
    var res := Resolution(7, 7);
    assert CropTop(l) == -10;
    assert Fits(l, res);
    CropGeometry(l, res);
    TruncQuotientUnique(InitCrop(l, res).rect.top, 0, -70, 100);
    CropInsideFrame(l, res);
  }

  /** A larger overlay extent never maps to a smaller camera extent. */
  lemma ScaleMonotone(v: int32, w: int32, camera: int32, container: int32)
    requires container > 0 && camera >= 0 && 0 <= v <= w
    requires InRange(w * camera)
    ensures Scale(v, camera, container) <= Scale(w, camera, container)
  {
    MulNonNegative(v, camera);
    MulMonotone(v, w, camera);
    ScaleTruncates(v, camera, container);
    ScaleTruncates(w, camera, container);
    TruncMonotone(Scale(v, camera, container), Scale(w, camera, container), v, w, camera, container);
  }

  /**
    Doubling an overlay extent doubles its camera extent only up to one pixel:
    the two truncations can lose different fractions.
  */
  lemma ScaleDoubling(v: int32, camera: int32, container: int32)
    requires container > 0 && camera >= 0 && 0 <= v && InRange(2 * v)
    requires InRange((2 * v) * camera)
    ensures 2 * Scale(v, camera, container)
         <= Scale(2 * v, camera, container)
         <= 2 * Scale(v, camera, container) + 1
  {
    MulNonNegative(v, camera);
    MulMonotone(v, 2 * v, camera);
    ScaleTruncates(v, camera, container);
    ScaleTruncates(2 * v, camera, container);
    TruncDoubling(Scale(v, camera, container), Scale(2 * v, camera, container), v, camera, container);
  }

  /** One overlay pixel over a sensor that is one and a half times as wide: doubling gives three, not two. */
  lemma DoublingIsNotExact()
    ensures Scale(1, 3, 2) == 1 && Scale(2, 3, 2) == 3
  {
  }

  /**
    An overlay one pixel above the container, with a sensor shorter than the
    container, gets top edge 0: Java truncates toward zero where a floor
    would give -1.
  */
  lemma NegativeTopRoundsTowardZero()
    ensures Scale(-1, 1080, 1920) == 0
  {
  }

  /** A top edge far enough under the status bar gives a negative rectangle top. */
  lemma FarNegativeTopStaysNegative()
    ensures var l := Layout(0, 0, 100, 100, 100, 100, 100);
      var res := Resolution(7, 7);
      && CropTop(l) == -100
      && InitCrop(l, res).Mapped?
      && InitCrop(l, res).rect.top == -7
  {
    var l := Layout(0, 0, 100, 100, 100, 100, 100);
    var res := Resolution(7, 7);
    assert CropTop(l) == -100;
    assert Fits(l, res);
    CropGeometry(l, res);
    TruncQuotientUnique(InitCrop(l, res).rect.top, -7, -700, 100);
  }
}

=== FILE: java_int.dfy ===
/**
  Java's 32-bit `int` arithmetic, as the crop computation of the capture
  screen uses it: every operation wraps modulo 2^32 into the two's-complement
  range, and `/` truncates toward zero (Dafny's own `/` is Euclidean).
*/
module JavaInt {

  const MinValue: int := -0x8000_0000
  const MaxValue: int := 0x7fff_ffff
  const Modulus: int := 0x1_0000_0000

  /** The values a Java `int` can hold. */
  type int32 = x: int | -0x8000_0000 <= x <= 0x7fff_ffff

  predicate InRange(v: int) {
    MinValue <= v <= MaxValue
  }

  function Abs(x: int): (a: nat) {
    if x < 0 then -x else x
  }

  /** Two's-complement wrap-around of a mathematical integer into `int`. */
  function Wrap(v: int): (r: int32)
    ensures (r - v) % Modulus == 0
    ensures InRange(v) ==> r == v
  {
    (v - MinValue) % Modulus + MinValue
  }

  /** Java `a + b` on `int`. */
  function Add(a: int32, b: int32): (r: int32)
    ensures (r - (a + b)) % Modulus == 0
    ensures InRange(a + b) ==> r == a + b
  {
    Wrap(a + b)
  }

  /** Java `a - b` on `int`. */
  function Sub(a: int32, b: int32): (r: int32)
    ensures (r - (a - b)) % Modulus == 0
    ensures InRange(a - b) ==> r == a - b
  {
    Wrap(a - b)
  }

  /** Java `a * b` on `int`. */
  function Mul(a: int32, b: int32): (r: int32)
    ensures (r - a * b) % Modulus == 0
    ensures InRange(a * b) ==> r == a * b
  {
    Wrap(a * b)
  }

  /** The one quotient Java cannot represent: `MIN_VALUE / -1`. */
  predicate DivOverflows(a: int, b: int) {
    a == MinValue && b == -1
  }

  lemma AbsMul(x: int, y: int)
    ensures Abs(x * y) == Abs(x) * Abs(y)
  {
    if x < 0 && y < 0 {
      assert x * y == (-x) * (-y);
    } else if x < 0 {
      assert -(x * y) == (-x) * y;
    } else if y < 0 {
      assert -(x * y) == x * (-y);
    }
  }

  /** Java `a / b` on `int`; `DivSpec` states what it computes. */
  function Div(a: int32, b: int32): (q: int32)
    requires b != 0
  {
    var m := Abs(a) / Abs(b);
    if DivOverflows(a, b) then MinValue
    else if (a < 0) == (b < 0) then Wrap(m)
    else Wrap(-m)
  }

  /**
    Java's truncating division: the quotient has the largest magnitude whose
    product with `b` does not exceed `a` in magnitude, it is negative exactly
    when the operands differ in sign and `|a| >= |b|`, and the single
    overflowing case, `MIN_VALUE / -1`, wraps back to `MIN_VALUE`.
  */
  lemma DivSpec(a: int32, b: int32)
    requires b != 0
    ensures DivOverflows(a, b) ==> Div(a, b) == MinValue
    ensures !DivOverflows(a, b) ==> Abs(b * Div(a, b)) <= Abs(a) < Abs(b * Div(a, b)) + Abs(b)
    ensures !DivOverflows(a, b) ==> (Div(a, b) > 0 <==> Abs(a) >= Abs(b) && (a < 0) == (b < 0))
    ensures !DivOverflows(a, b) ==> (Div(a, b) < 0 <==> Abs(a) >= Abs(b) && (a < 0) != (b < 0))
  {
    var m := Abs(a) / Abs(b);
    var q := if (a < 0) == (b < 0) then m else -m;
    NatDiv(Abs(a), Abs(b));
    QuotientMagnitude(Abs(a), Abs(b));
    DivFacts(a, b, m, q);
    if !DivOverflows(a, b) {
      assert Div(a, b) == Wrap(q);
      assert InRange(q);
      assert Div(a, b) == q;
    }
  }

  lemma MulMonotone(x: int, y: int, k: nat)
    requires x <= y
    ensures x * k <= y * k
  {
  }

  /** Facts about natural-number division that the truncating quotient rests on. */
  lemma NatDiv(n: nat, d: nat)
    requires d > 0
    ensures d * (n / d) <= n < d * (n / d) + d
    ensures 0 <= n / d <= n
    ensures n / d > 0 <==> n >= d
  {
    var m, r := n / d, n % d;
    assert n == d * m + r && 0 <= r < d;
    if m > 0 {
      MulMonotone(1, d, m);
      MulMonotone(1, m, d);
    }
  }

  /** Only a divisor of magnitude one leaves a quotient as large as `-MIN_VALUE`. */
  lemma QuotientMagnitude(n: nat, d: nat)
    requires d > 0 && n <= -MinValue
    ensures n / d <= n
    ensures n / d == -MinValue ==> d == 1
  {
    NatDiv(n, d);
    var m := n / d;
    if d >= 2 {
      MulMonotone(2, d, m);
    }
  }

  /** The truncating quotient assembled from the magnitude quotient `m` of `|a|` by `|b|`. */
  lemma DivFacts(a: int32, b: int32, m: nat, q: int)
    requires b != 0
    requires Abs(b) * m <= Abs(a) < Abs(b) * m + Abs(b)
    requires m <= Abs(a) && (m == -MinValue ==> Abs(b) == 1)
    requires q == if (a < 0) == (b < 0) then m as int else -(m as int)
    ensures !DivOverflows(a, b) ==> InRange(q)
    ensures DivOverflows(a, b) ==> q == -MinValue
    ensures Abs(b * q) <= Abs(a) < Abs(b * q) + Abs(b)
    ensures q > 0 <==> Abs(a) >= Abs(b) && (a < 0) == (b < 0)
    ensures q < 0 <==> Abs(a) >= Abs(b) && (a < 0) != (b < 0)
  {
    var n, d := Abs(a), Abs(b);
    assert m > 0 <==> n >= d by {
      if m > 0 {
        MulMonotone(1, m, d);
      }
    }
    assert Abs(b * q) == d * m by {
      AbsMul(b, q);
    }
  }
}

=== FILE: screen.dfy ===
/**
  The capture screen's own bookkeeping around the camera: the preview
  surface flag, the camera-initialisation guard, the lifecycle callbacks
  that open and close the camera, and the flashlight toggle. The camera
  manager, the decode handler and the torch are outside this model; only
  their effects (driver open or closed, handler present or not, the last
  torch command the current manager received) are kept as state.
*/
module Screen {
  import opened Crop

  datatype Option<T> = None | Some(value: T)

  /** How the camera driver behaves when the screen initialises it. */
  datatype DriverOutcome =
    | Opens         // the driver opens and the decode handler starts the preview
    | OpenFails     // opening the driver throws (an I/O or runtime fault)
    | PreviewFails  // the driver opens, but constructing the decode handler throws

  /** What the platform supplies when the camera is initialised. */
  datatype Platform = Platform(driver: DriverOutcome, layout: Layout, resolution: Resolution)

  datatype State = State(
    resumed: bool,            // between onResume and onPause (lifecycle position)
    hasSurface: bool,         // the screen's surface flag
    callbackInstalled: bool,  // the screen listens for surface callbacks
    cameraOpen: bool,         // the current camera manager holds the driver
    leaked: nat,              // drivers still held by camera managers already replaced
    handlerPresent: bool,     // a decode handler is running
    flashlightOn: bool,       // the screen's flashlight flag
    torch: Option<bool>,      // the last torch command the current manager received, if any
    crop: Option<Rect>,       // the crop rectangle computed for the current session
    errorShown: bool)         // the camera-failure dialog has been shown

  /** The screen right after creation: nothing open, flashlight off, no torch command yet. */
  const Created: State :=
    State(false, false, false, false, 0, false, false, None, None, false)

  /** The lifecycle and user events the screen reacts to. */
  datatype Event =
    | Resume(p: Platform)
    | Pause
    | SurfaceCreated(p: Platform)
    | SurfaceDestroyed
    | FlashlightClick

  /** Camera drivers held at once, by the current manager and by replaced ones. */
  function DriversHeld(s: State): (n: nat) {
    s.leaked + (if s.cameraOpen then 1 else 0)
  }

  /** A torch command the current manager received agrees with the flashlight flag. */
  predicate TorchConsistent(s: State) {
    match s.torch
    case None => true
    case Some(on) => on == s.flashlightOn
  }

  // ---------------------------------------------------------------------
  // Transitions

  /**
    Camera initialisation: a no-op when the current manager already holds
    the driver; otherwise the driver is opened, the decode handler created
    if there is none, and the crop rectangle computed. A failure at any of
    the three steps shows the error dialog and skips the steps after it.
  */
  function InitCamera(s: State, p: Platform): (r: State)
    ensures s.cameraOpen ==> r == s
    ensures r.leaked == s.leaked && r.resumed == s.resumed && r.hasSurface == s.hasSurface
    ensures r.callbackInstalled == s.callbackInstalled
    ensures r.flashlightOn == s.flashlightOn && r.torch == s.torch
  {
    if s.cameraOpen then
      s
    else if p.driver == OpenFails then
      s.(errorShown := true)
    else
      var withDriver := s.(cameraOpen := true);
      if !s.handlerPresent && p.driver == PreviewFails then
        withDriver.(errorShown := true)
      else
        var started := withDriver.(handlerPresent := true);
        match InitCrop(p.layout, p.resolution)
        case Mapped(rect) => started.(crop := Some(rect))
        case DivideByZero => started.(errorShown := true)
  }

  /**
    Initialisation opens the driver only when the current manager holds none,
    and then exactly one more driver is held unless the opening itself failed.
  */
  lemma InitCameraOpensOnce(s: State, p: Platform)
    ensures s.cameraOpen ==> InitCamera(s, p) == s
    ensures !s.cameraOpen ==> (InitCamera(s, p).cameraOpen <==> p.driver != OpenFails)
    ensures DriversHeld(InitCamera(s, p))
         == DriversHeld(s) + (if !s.cameraOpen && p.driver != OpenFails then 1 else 0)
  {
  }

  /**
    A successful opening leaves a running handler and the session's crop
    rectangle; the dialog appears exactly when the crop computation divides
    by zero.
  */
  lemma InitCameraStarts(s: State, p: Platform)
    requires !s.cameraOpen && p.driver == Opens
    ensures InitCamera(s, p).handlerPresent
    ensures InitCamera(s, p).errorShown <==> s.errorShown || InitCrop(p.layout, p.resolution).DivideByZero?
    ensures InitCrop(p.layout, p.resolution).Mapped? ==>
      InitCamera(s, p).crop == Some(InitCrop(p.layout, p.resolution).rect)
    ensures InitCrop(p.layout, p.resolution).DivideByZero? ==> InitCamera(s, p).crop == s.crop
  {
  }

  /**
    A failed opening, or a handler that fails to start, shows the dialog and
    leaves the crop rectangle as it was; a handler that is already running is
    kept, so a start failure cannot arise then.
  */
  lemma InitCameraFaults(s: State, p: Platform)
    requires !s.cameraOpen
    ensures p.driver == OpenFails ==>
      InitCamera(s, p).errorShown && !InitCamera(s, p).cameraOpen && InitCamera(s, p).crop == s.crop
    ensures p.driver == PreviewFails && !s.handlerPresent ==>
      InitCamera(s, p).errorShown && !InitCamera(s, p).handlerPresent && InitCamera(s, p).crop == s.crop
    ensures p.driver == PreviewFails && s.handlerPresent ==>
      InitCamera(s, p) == InitCamera(s, p.(driver := Opens))
  {
  }

  /**
    Resuming installs a fresh camera manager (closed, and told nothing about
    the torch) and drops the handler; the flashlight flag is kept. With a
    surface already present it initialises the camera at once, otherwise it
    waits for the surface callback.
  */
  function OnResume(s: State, p: Platform): (r: State)
    ensures r.resumed
    ensures r.leaked == s.leaked + (if s.cameraOpen then 1 else 0)
    ensures s.hasSurface ==> r.cameraOpen == (p.driver != OpenFails)
    ensures !s.hasSurface ==> !r.cameraOpen && !r.handlerPresent && r.callbackInstalled
    ensures r.hasSurface == s.hasSurface
    ensures r.flashlightOn == s.flashlightOn && r.torch == None
  {
    var renewed := s.(resumed := true, cameraOpen := false, handlerPresent := false, torch := None,
                      leaked := s.leaked + (if s.cameraOpen then 1 else 0));
    if s.hasSurface then InitCamera(renewed, p)
    else renewed.(callbackInstalled := true)
  }

  /**
    Pausing stops the handler and closes the driver; the surface callback is
    removed only when there is no surface.
  */
  function OnPause(s: State): (r: State)
    ensures !r.resumed && !r.cameraOpen && !r.handlerPresent
    ensures DriversHeld(r) == s.leaked
    ensures r.callbackInstalled <==> s.callbackInstalled && s.hasSurface
    ensures r.hasSurface == s.hasSurface
    ensures r.flashlightOn == s.flashlightOn && r.torch == s.torch
  {
    s.(resumed := false, handlerPresent := false, cameraOpen := false,
       callbackInstalled := s.callbackInstalled && s.hasSurface)
  }

  /**
    A new surface initialises the camera only when none was flagged, and
    flags it: the driver is then open unless it was closed and failed to
    open, and one more driver is held exactly when it was newly opened.
  */
  function OnSurfaceCreated(s: State, p: Platform): (r: State)
    ensures s.hasSurface ==> r == s
    ensures r.hasSurface
    ensures !s.hasSurface ==> (r.cameraOpen <==> s.cameraOpen || p.driver != OpenFails)
    ensures DriversHeld(r)
         == DriversHeld(s) + (if !s.hasSurface && !s.cameraOpen && p.driver != OpenFails then 1 else 0)
    ensures r.resumed == s.resumed && r.callbackInstalled == s.callbackInstalled
    ensures r.flashlightOn == s.flashlightOn && r.torch == s.torch
  {
    if !s.hasSurface then InitCamera(s.(hasSurface := true), p) else s
  }

  /** A destroyed surface clears the flag and nothing else. */
  function OnSurfaceDestroyed(s: State): (r: State)
    ensures !r.hasSurface
    ensures r.(hasSurface := s.hasSurface) == s
  {
    s.(hasSurface := false)
  }

  /** The flashlight button flips the flag and sends the torch the new value. */
  function OnFlashlightClick(s: State): (r: State)
    ensures r.flashlightOn == !s.flashlightOn
    ensures r.torch == Some(r.flashlightOn)
    ensures r.(flashlightOn := s.flashlightOn, torch := s.torch) == s
  {
    if s.flashlightOn then
      s.(torch := Some(false), flashlightOn := false)
    else
      s.(torch := Some(true), flashlightOn := true)
  }

  /** One event; surface events reach the screen only while its callback is installed. */
  function Step(s: State, e: Event): (r: State) {
    match e
    case Resume(p) => OnResume(s, p)
    case Pause => OnPause(s)
    case SurfaceCreated(p) => if s.callbackInstalled then OnSurfaceCreated(s, p) else s
    case SurfaceDestroyed => if s.callbackInstalled then OnSurfaceDestroyed(s) else s
    case FlashlightClick => OnFlashlightClick(s)
  }

  function Run(s: State, events: seq<Event>): (r: State)
    decreases |events|
  {
    if |events| == 0 then s else Run(Step(s, events[0]), events[1..])
  }

  /**
    The platform's event ordering: resume and pause alternate, and buttons
    and new surfaces arrive only while the screen is resumed.
  */
  predicate Enabled(s: State, e: Event) {
    match e
    case Resume(_) => !s.resumed
    case Pause => s.resumed
    case SurfaceCreated(_) => s.resumed
    case SurfaceDestroyed => true
    case FlashlightClick => s.resumed
  }

  predicate Admissible(s: State, events: seq<Event>)
    decreases |events|
  {
    |events| == 0 || (Enabled(s, events[0]) && Admissible(Step(s, events[0]), events[1..]))
  }

  /**
    What every admissible run keeps: no replaced manager still holds a
    driver, and only a resumed screen holds one.
  */
  predicate Invariant(s: State) {
    && s.leaked == 0
    && (s.cameraOpen ==> s.resumed)
  }

  // ---------------------------------------------------------------------
  // Properties

  /** Two clicks restore the flag and leave the torch told the original value. */
  lemma ClickTwiceRestores(s: State)
    ensures OnFlashlightClick(OnFlashlightClick(s)).flashlightOn == s.flashlightOn
    ensures OnFlashlightClick(OnFlashlightClick(s)).torch == Some(s.flashlightOn)
    ensures s.torch.Some? && TorchConsistent(s) ==> OnFlashlightClick(OnFlashlightClick(s)) == s
  {
  }

  /**
    Only the flashlight button changes the flag or sends a torch command;
    a resume replaces the manager, so the current manager then has received
    no command, while every other event keeps the command as it was.
  */
  lemma OnlyClickTouchesTorch(s: State, e: Event)
    requires !e.FlashlightClick?
    ensures Step(s, e).flashlightOn == s.flashlightOn
    ensures e.Resume? ==> Step(s, e).torch == None
    ensures !e.Resume? ==> Step(s, e).torch == s.torch
  {
  }

  /**
    Every event, in any order, keeps the current manager's torch command in
    agreement with the flag: a click sends the new flag, a resume leaves the
    new manager without a command, and nothing else touches either.
  */
  lemma StepKeepsTorchConsistent(s: State, e: Event)
    requires TorchConsistent(s)
    ensures TorchConsistent(Step(s, e))
  {
  }

  lemma {:induction false} RunKeepsTorchConsistent(s: State, events: seq<Event>)
    requires TorchConsistent(s)
    ensures TorchConsistent(Run(s, events))
    decreases |events|
  {
    if |events| > 0 {
      StepKeepsTorchConsistent(s, events[0]);
      RunKeepsTorchConsistent(Step(s, events[0]), events[1..]);
    }
  }

  /** The screen starts in a state that satisfies the invariant. */
  lemma CreatedSatisfiesInvariant()
    ensures Invariant(Created)
    ensures DriversHeld(Created) == 0
    ensures TorchConsistent(Created) && !Created.flashlightOn
  {
  }

  /** Every enabled event preserves the invariant. */
  lemma StepPreservesInvariant(s: State, e: Event)
    requires Invariant(s) && Enabled(s, e)
    ensures Invariant(Step(s, e))
  {
  }

  /**
    Along any admissible run the invariant holds, so at most one camera
    driver is ever held: the camera is never opened a second time while it
    is open.
  */
  lemma {:induction false} RunPreservesInvariant(s: State, events: seq<Event>)
    requires Invariant(s) && Admissible(s, events)
    ensures Invariant(Run(s, events))
    ensures DriversHeld(Run(s, events)) <= 1
    decreases |events|
  {
    if |events| > 0 {
      StepPreservesInvariant(s, events[0]);
      RunPreservesInvariant(Step(s, events[0]), events[1..]);
    }
  }

  /**
    An opening never happens while a driver is held: whenever a step under
    the invariant raises the number of held drivers, none was held before.
  */
  lemma OpensOnlyWhenNoneHeld(s: State, e: Event)
    requires Invariant(s) && Enabled(s, e)
    ensures DriversHeld(Step(s, e)) > DriversHeld(s) ==> DriversHeld(s) == 0
  {
    StepPreservesInvariant(s, e);
  }

  /**
    Without the ordering assumption the guard is not enough: the surface
    callback stays installed across a pause when a surface exists, so a
    surface recreated while paused opens the driver on the old manager, and
    the next resume replaces that manager without closing it and attempts a
    second opening. When the platform lets that opening succeed (here it
    answers `Opens` throughout), two drivers are held.
  */
  lemma PausedSurfaceOpensTwice()
    ensures var p := Platform(Opens, Layout(0, 0, 0, 1, 1, 1, 1), Resolution(1, 1));
      var trace := [Resume(p), SurfaceCreated(p), Pause, SurfaceDestroyed, SurfaceCreated(p), Resume(p)];
      && !Admissible(Created, trace)
      && DriversHeld(Run(Created, trace)) == 2
  {
    var p := Platform(Opens, Layout(0, 0, 0, 1, 1, 1, 1), Resolution(1, 1));
    var s1 := Step(Created, Resume(p));
    var s2 := Step(s1, SurfaceCreated(p));
    var s3 := Step(s2, Pause);
    var s4 := Step(s3, SurfaceDestroyed);
    var s5 := Step(s4, SurfaceCreated(p));
    var s6 := Step(s5, Resume(p));
    assert s2.cameraOpen && s3.callbackInstalled && !s4.hasSurface;
    assert s5.cameraOpen && !s5.resumed;
    assert DriversHeld(s6) == 2;
    var trace := [Resume(p), SurfaceCreated(p), Pause, SurfaceDestroyed, SurfaceCreated(p), Resume(p)];
    assert !Admissible(Created, trace) by {
      assert !Enabled(s4, SurfaceCreated(p));
      assert !Admissible(s4, trace[4..]);
      assert trace[3..][1..] == trace[4..];
      assert !Admissible(s3, trace[3..]);
      assert trace[2..][1..] == trace[3..];
      assert !Admissible(s2, trace[2..]);
      assert trace[1..][1..] == trace[2..];
      assert !Admissible(s1, trace[1..]);
    }
    assert Run(Created, trace) == s6 by {
      assert trace[5..][1..] == [];
      assert Run(s5, trace[5..]) == s6;
      assert trace[4..][1..] == trace[5..];
      assert Run(s4, trace[4..]) == s6;
      assert trace[3..][1..] == trace[4..];
      assert Run(s3, trace[3..]) == s6;
      assert trace[2..][1..] == trace[3..];
      assert Run(s2, trace[2..]) == s6;
      assert trace[1..][1..] == trace[2..];
      assert Run(s1, trace[1..]) == s6;
    }
  }

  /**
    The flashlight flag outlives the camera manager: after switching the
    flashlight on, pausing and resuming, the flag still says on while the
    new manager has received no torch command, so the next click sends it
    "off".
  */
  lemma ResumeForgetsTorch()
    ensures var p := Platform(Opens, Layout(0, 0, 0, 1, 1, 1, 1), Resolution(1, 1));
      var trace := [Resume(p), SurfaceCreated(p), FlashlightClick, Pause, Resume(p)];
      && Admissible(Created, trace)
      && Run(Created, trace).flashlightOn
      && Run(Created, trace).torch == None
      && OnFlashlightClick(Run(Created, trace)).torch == Some(false)
  {
    var p := Platform(Opens, Layout(0, 0, 0, 1, 1, 1, 1), Resolution(1, 1));
    var s1 := Step(Created, Resume(p));
    var s2 := Step(s1, SurfaceCreated(p));
    var s3 := Step(s2, FlashlightClick);
    var s4 := Step(s3, Pause);
    var s5 := Step(s4, Resume(p));
    assert s1.resumed && s1.callbackInstalled && s2.resumed && s3.resumed && s3.flashlightOn;
    assert s5.flashlightOn && s5.torch == None;
    var trace := [Resume(p), SurfaceCreated(p), FlashlightClick, Pause, Resume(p)];
    assert Admissible(Created, trace) by {
      assert trace[4..][1..] == [];
      assert Admissible(s4, trace[4..]);
      assert trace[3..][1..] == trace[4..];
      assert Admissible(s3, trace[3..]);
      assert trace[2..][1..] == trace[3..];
      assert Admissible(s2, trace[2..]);
      assert trace[1..][1..] == trace[2..];
      assert Admissible(s1, trace[1..]);
    }
    assert Run(Created, trace) == s5 by {
      assert trace[4..][1..] == [];
      assert Run(s4, trace[4..]) == s5;
      assert trace[3..][1..] == trace[4..];
      assert Run(s3, trace[3..]) == s5;
      assert trace[2..][1..] == trace[3..];
      assert Run(s2, trace[2..]) == s5;
      assert trace[1..][1..] == trace[2..];
      assert Run(s1, trace[1..]) == s5;
    }
  }
}
